=== FILE: README.md ===
# azor promise engine in Dafny

A model of the untyped promise engine of `azor` (`promise/promise.go`) and of
the outcome mapping of its typed wrapper (`promise.go`), with proofs of the
properties the code and its Promises/A+-numbered tests promise.

Goroutines are abstracted away. All promises live in a `Store`, a map from a
promise identity to `Pending` or `Settled(result)`, where a `result` holds a
value and a possibly nil error, and a promise counts as rejected exactly when
the error is non-nil. Each operation is a pure state transition:

- `Cell`: the store, the `result` record, a promise's `Pending`/`Settled`
  state, and `settle`, the single-assignment write that only a pending
  promise accepts.
- `Settlement`: `resolve` (flattening a settled inner promise, rejecting on an
  error value, fulfilling on anything else, blocking on a pending promise),
  `reject`, the `Resolve`/`Reject` constructors and `rejectOnPanic`.
- `Flattening`: nested promises flatten to the terminal outcome; a blocked
  resolver adopts the inner result once it settles.
- `Chaining`: `Then`, `Catch` and `Finally` fill in default handlers and
  register a task; `RunThen` and `RunFinally` are the bodies of those tasks,
  run once the source has settled.
- `ChainingFacts`: pass-through defaults, recovery, self-reference, `Finally`.
- `Executor`: `New` and the executor goroutine as the sequence of
  `resolve`/`reject`/panic calls it makes.
- `SettleOnce`: races as every order of `settle` calls, or of
  `resolve`/`reject` calls; first settlement wins and every reader agrees.
- `Azor`: the typed wrapper's `Run` and `Get`.

Waiting on a promise is a precondition that it is settled. A store invariant,
`Cell.Valid`, holds after every operation: a stored value is never an error or
a promise, and a rejection stores a nil value. Under it, `resolve` recurses at
most once, which is what makes `Settlement.Adopt` terminate.

Where Promises/A+ and the code differ, the model follows the code:

- Section 2.3.1 of Promises/A+, quoted by the self-resolution test
  (promise/spec_231_self_test.go:9), says a promise resolved with itself is
  rejected. The code only compares a `then` handler's return value with the
  *source* promise. `resolve(p)` on a pending `p` itself waits on `p`
  forever; see `Flattening.ResolveWithOwnIdentityStaysPending`.
- `Finally` reads a returned promise's result without waiting. A returned
  promise that is still pending therefore does not override the source's
  outcome.

The comment in `Get` (promise.go:63-64) says its type assertion can never
fail, because `Run` only accepts functions that return the type parameter.
It can fail in two cases:
- The type parameter is an interface type and the function returns nil.
- The type parameter's values include `*promise.Promise` and the function
  returns a promise. `resolve` flattens that promise, so the stored value is
  the inner promise's value, which is not of the type parameter.

In both cases `Get` returns the zero value with a nil error. In the second
case the function's result is lost; see `Azor.FlattenedPromiseValueLost`.
The model follows the code.

## Model

| member | source | states |
|---|---|---|
| Cell.Settle | promise/promise.go:231-236 | a pending promise takes the written result; a settled one is left exactly as it was; no other promise changes |
| Cell.NewPromise | promise/promise.go:60-64 | a fresh identity, not used before, starts pending and nothing else changes |
| Settlement.Adopt | promise/promise.go:186-205 | the result resolve writes: an error value rejects with that error, nil or an ordinary value fulfils with it, a settled promise is adopted with exactly its outcome, a pending promise blocks; the result never holds an error or promise value |
| Settlement.Resolve | promise/promise.go:186-205 | resolve on a pending promise fulfils with a terminal value, rejects with an error value, copies a settled inner promise's state, and changes nothing while the inner promise is pending or once the promise is settled |
| Settlement.Reject | promise/promise.go:225-227 | reject stores a nil value with the given error; a settled promise is unchanged |
| Settlement.NewResolved | promise/promise.go:241-245 | the constructor gives a fresh promise holding the flattened outcome of the value, with the same state as an inner promise |
| Settlement.NewRejected | promise/promise.go:249-253 | the constructor rejects a fresh promise with the error, and a nil error fulfils it with nil |
| Settlement.RejectOnPanic | promise/promise.go:209-222 | no panic leaves the store unchanged; an error payload rejects with that error; any other payload rejects with a message of "panic: " followed by the payload |
| Errors.PanicReason | promise/promise.go:216-221 | an error payload is the reason itself; any other payload gives a message whose prefix is "panic: " and whose rest is the payload rendering |
| Flattening.NestedPromisesFlatten | promise/promise.go:238-245 | however many promises deep a value is nested, the outermost promise fulfils with the terminal value, or rejects with the error, never with a promise |
| Flattening.BlockedResolverResumes | promise/promise.go:188-197 | resolving with a pending promise changes nothing, and once that promise settles the resolver adopts exactly its result |
| Flattening.ResolveWithOwnIdentityStaysPending | promise/promise.go:186-197 | resolve has no self-reference check: a pending promise resolved with itself stays pending |
| Chaining.Then | promise/promise.go:78-94 | the derived promise is fresh and pending; a missing onFulfilled is the identity; only the first onRejected is used, and a missing or nil one returns the error |
| Chaining.Catch | promise/promise.go:100-102 | the fulfilment handler is the identity and the given rejection handler, or the error-returning default, handles rejections |
| Chaining.Finally | promise/promise.go:108-111 | the derived promise is fresh and pending; a missing handler returns nil |
| Chaining.RunThen | promise/promise.go:150-174 | exactly one handler runs on the settled result; its value goes through resolve (plain value fulfils, error rejects, settled promise adopted, pending promise waits); returning the source rejects with the self-resolve error; a panic rejects |
| Chaining.Override | promise/promise.go:118-131 | onFinally's return overrides the source exactly when it is an error or a promise already holding an error, and the override is that error |
| Chaining.RunFinally | promise/promise.go:112-139 | a panic, an error value or a rejected promise from onFinally rejects with its reason; any other return, including a pending promise, leaves the derived promise in the source's state |
| ChainingFacts.ThenDefaultsPassThrough | promise/promise.go:79-91 | Then without handlers settles the derived promise exactly as the source, fulfilled or rejected |
| ChainingFacts.CatchPassesFulfilment | promise/promise.go:100-102 | Catch on a fulfilled source calls no rejection handler and passes the value through |
| ChainingFacts.RejectionHandlerResult | promise/promise.go:157-172 | a rejection handler returning a plain value fulfils the derived promise; returning an error rejects it with that error |
| ChainingFacts.RejectNilCallsOnFulfilled | promise/promise.go:157-161 | a promise made by Reject(nil) makes Then call onFulfilled with nil, not onRejected |
| ChainingFacts.HandlerReturningSourceRejects | promise/promise.go:157-168 | for any handlers, if the one handler that runs returns its own source, the derived promise is rejected with an error that wraps ErrUnsupported |
| ChainingFacts.FinallyKeepsOutcome | promise/promise.go:108-139 | Finally with a nil handler, or with one returning a value that is neither an error nor a promise, keeps the source's outcome |
| ChainingFacts.FinallyReturningRejectedPromise | promise/promise.go:119-125 | Finally whose handler returns a rejected promise rejects with that promise's reason |
| ChainingFacts.RejectionReachesCatch | promise/promise.go:84-91 | a rejection passes a Then without rejection handler unchanged and reaches the next Catch handler with the same reason |
| Executor.New | promise/promise.go:47-57 | a nil executor panics with "promise: nil function"; otherwise a fresh pending promise is returned |
| Executor.Execute | promise/promise.go:51-55 | the executor goroutine changes only its own promise, keeps the store invariant, and stops after a panic or at a resolve waiting on a pending promise |
| Executor.RunExecutor | promise/promise.go:51-55 | on a pending promise the first call alone decides the outcome (what resolve adopts, reject's error, or the panic's reason); a settled promise and every other promise are never changed; the calls left over are a suffix that starts at a resolve waiting on a pending promise; a first resolve that waits leaves every call, itself included, still to run, and a first panic leaves none; after a first call that settles, the calls left over are the waiting suffix of the later ones |
| Executor.RunLaterCalls | promise/promise.go:51-55 | once the promise is settled, the executor's later calls leave the store exactly as it is, and the run stops at the first panic or at the first resolve that waits on a pending promise, leaving that resolve and everything after it |
| Executor.SettledExecutorLeavesWaitingSuffix | promise/promise.go:51-55 | on a settled promise, the calls the executor goroutine leaves over are exactly the waiting suffix: from the first waiting resolve, or none when a panic comes first |
| Executor.FirstCallDecides | promise/promise.go:51-55 | whatever the executor does after its first call, a pending promise ends in the state that first call alone leaves it in |
| Executor.NoPanicBeforeBlockedCall | promise/promise.go:52-55 | an executor left waiting in a resolve has not panicked before it, because a panic ends the executor with nothing left to run |
| Executor.SettledExecutorIgnoresLaterCalls | promise/promise.go:231-236 | once the promise is settled, no later resolve, reject or panic of its executor changes the store |
| Executor.FirstRejectWins | promise/promise.go:225-236 | a reject on a pending promise decides its outcome whatever the executor does next |
| Executor.PanicAfterResolveIgnored | promise/promise.go:52-54 | a panic after a successful resolve leaves the fulfilment in place |
| SettleOnce.FirstWriteWins | promise/promise.go:231-236 | in any order of settle calls, a pending promise ends with the first result written to it, and a settled or untouched one keeps its state |
| SettleOnce.ReadersAgree | promise/promise.go:25-31 | once a promise is settled at some point of a race, every later point shows the same state |
| SettleOnce.SettledIsFinal | promise/promise.go:186-236 | any later sequence of resolve and reject calls, on any promises, leaves a settled promise's state unchanged |
| Azor.Run | promise.go:28-42 | a nil function panics with "azor: nil function" before anything starts; otherwise a fresh pending promise is returned |
| Azor.Calls | promise.go:33-40 | a non-nil error is passed to reject and the value is dropped; a nil error passes the value to resolve; a panic stays a panic |
| Azor.Complete | promise.go:33-41 | the function's error rejects the promise; a nil error fulfils it with the value, rejects it when the value is itself an error, and gives it a returned promise's state; a panic rejects with its reason |
| Azor.Effective | promise.go:53-55 | a nil context becomes the background context, which never finishes |
| Azor.SettledPair | promise.go:57-72 | a fulfilment whose value passes the type assertion gives the value with a nil error; one whose value fails it gives the zero value with a nil error, because the handler panics before recording anything; a rejection gives the zero value with the reason |
| Azor.Get | promise.go:49-82 | with a nil context, the settled pair, type assertion included; with an unsettled promise, the zero value and the context's error; when both are ready, whichever branch the select takes |
| Azor.RunGetRoundTrip | promise.go:28-82 | for a function whose value returned with a nil error is neither an error nor a promise, and is a value of the type parameter or nil, Get after Run returns that value with a nil error, or the zero value with its error or its panic's reason |
| Azor.GetIsStable | promise.go:44-48 | Get calls on a settled promise that both take the settled branch return the same pair whatever resolve or reject calls happen in between |
| Azor.FlattenedPromiseValueLost | promise.go:57-72 | a function returning a promise fulfilled with a value that is not of the type parameter fulfils its own promise with that value, yet Get returns the zero value with a nil error |
| Azor.CancelledGetLeavesPromiseRunning | promise.go:75-81 | a cancelled Get returns the context's error while the promise stays pending, and the function still settles it afterwards |

## Left out

- Goroutines, `sync.Once`, the `done` channel, `wait`, `Done` and `select`
  are not modelled as such. A wait is a precondition that the promise is
  settled. A race is an order of `settle`, `resolve` or `reject` calls.
- The order in which sibling handlers on one promise run. The source
  promises none, so the model gives none.
- A task that waits in `resolve` on a pending promise is modelled as not yet
  having happened. Running it again after the inner promise settles is the
  same as resuming it, because handlers are modelled as pure functions.
- `Settlement.NewResolved`: where `Resolve` with a pending inner promise
  would keep its caller waiting, the model returns the still-pending promise.
- `context.Context` internals, deadlines and timing. A context is
  `Background` or a cancellable context that has or has not finished, with an
  opaque error.
- `Azor.Get`: the helper promise it derives with `Then` is not kept in the
  store. Its readiness is taken to be the source's settlement. The zero value
  of the type parameter is represented by `Nil`. The type assertion is a
  test on values supplied by the caller. The text of the panic raised when
  the assertion fails is not modelled, because that panic only rejects the
  helper promise.
- `fmt.Errorf` rendering beyond the literal "panic: " prefix, and the text of
  error values. Errors are abstract identifiers. `Errors.Is` models
  `errors.Is` only through prefix wrapping.
- A typed nil `*Promise` or nil error passed as `any`, and `panic(nil)`. The
  model has one `Nil` value, and a recovered `nil` counts as no panic.
- An identity that the store never handed out reads as a pending promise.
  Go cannot produce such a reference.
- `azor.go` (`Async`, `Await`), which only adds nil-argument panics and
  delegates to `Run` and `Get`.
- `NewContext`, named in a doc comment of promise/promise.go, is not part of
  this model.

=== FILE: azor.dfy ===
/**
 The typed wrapper of promise.go: `Run` starts a function returning
 `(value, error)` as a promise executor, and `Get` returns the settled
 `(value, error)` pair, or the context's error when the context finishes
 first. The zero value of the wrapper's type parameter is represented by `Nil`,
 and the type assertion `value.(T)` by a test on values.
 */
module Azor {
  import opened Wrappers
  import opened Errors
  import opened Cell
  import opened Settlement
  import opened Executor
  import SettleOnce

  /** What the wrapped function does: return `(val, err)`, or panic. */
  datatype FnOutcome = Returned(val: Value, err: Option<Error>) | Panicked(payload: Panic)

  type Fn = () -> FnOutcome

  /** The type assertion `value.(T)` for the wrapper's type parameter `T`:
      whether a value stored in the untyped promise has dynamic type `T`.
      For an interface type `T` a nil value fails it. */
  type TypeTest = Value -> bool

  /** What `Run` gives back: its panic for a nil function, or the typed
      promise (the identity of the untyped promise it wraps). */
  datatype Launch = NilFn(message: string) | Running(st: Store, id: PromiseId)

  const NilFunctionMessage: string := "azor: nil function"

  /** `Run` (promise.go:28-42): a nil function panics before anything starts;
      otherwise a fresh pending promise is returned and the function runs as
      its executor. */
  function Run(st: Store, fn: Option<Fn>): (r: Launch)
    requires Valid(st)
    ensures fn.None? <==> r.NilFn?
    ensures r.NilFn? ==> r.message == NilFunctionMessage
    ensures r.Running? ==> Valid(r.st) && r.id !in st.promises && IsPending(r.st, r.id)
    ensures r.Running? ==> forall q :: q != r.id ==> StateOf(r.st, q) == StateOf(st, q)
  {
    match fn
    case None => NilFn(NilFunctionMessage)
    case Some(f) =>
      var (s, p) := NewPromise(st);
      Running(s, p)
  }

  /** The executor `Run` hands to `promise.New`: a non-nil error is passed to
      `reject` and the value is dropped; otherwise the value goes to
      `resolve`. */
  function Calls(o: FnOutcome): (r: seq<Action>)
    ensures |r| == 1
    ensures o.Returned? && o.err.Some? ==> r[0] == CallReject(o.err)
    ensures o.Returned? && o.err.None? ==> r[0] == CallResolve(o.val)
    ensures o.Panicked? ==> r[0] == Raise(o.payload)
  {
    match o
    case Returned(v, e) => if e.Some? then [CallReject(e)] else [CallResolve(v)]
    case Panicked(x) => [Raise(x)]
  }

  /** The goroutine `Run` started, run to completion against promise `p`. */
  function Complete(st: Store, p: PromiseId, fn: Fn): (r: Store)
    requires Valid(st) && p in st.promises
    ensures Valid(r) && OnlyTouches(st, r, p)
    ensures IsPending(st, p) && fn().Returned? && fn().err.Some? ==>
      StateOf(r, p) == Settled(Rejection(fn().err.value))
    ensures IsPending(st, p) && fn().Returned? && fn().err.None? && Terminal(fn().val) ==>
      StateOf(r, p) == Settled(Fulfilment(fn().val))
    ensures IsPending(st, p) && fn().Returned? && fn().err.None? && fn().val.ErrorValue? ==>
      StateOf(r, p) == Settled(Rejection(fn().val.err))
    ensures IsPending(st, p) && fn().Returned? && fn().err.None? && fn().val.PromiseRef? ==>
      StateOf(r, p) == StateOf(st, fn().val.id)
    ensures IsPending(st, p) && fn().Panicked? ==>
      StateOf(r, p) == Settled(Rejection(PanicReason(fn().payload)))
  {
    var cs := Calls(fn());
    assert cs[1..] == [];
    match cs[0]
    case CallReject(e) =>
      assert Execute(st, p, cs) == Execute(Reject(st, p, e), p, []);
      Execute(st, p, cs).0
    case CallResolve(v) =>
      assert Adopt(st, v).Settles? ==> Execute(st, p, cs) == Execute(Resolve(st, p, v), p, []);
      Execute(st, p, cs).0
    case Raise(_) =>
      Execute(st, p, cs).0
  }

  /** A context: `Background` never finishes; a cancellable one may have
      finished, with the error `ctx.Err()` returns. */
  datatype Context = Background | Cancellable(finished: bool, reason: Error)

  /** `Get` replaces a nil context by `context.Background()`. */
  function Effective(ctx: Option<Context>): (c: Context)
    ensures ctx.None? ==> c.Background?
    ensures ctx.Some? ==> c == ctx.value
  {
    ctx.GetOr(Background)
  }

  predicate Finished(ctx: Option<Context>)
  {
    Effective(ctx).Cancellable? && Effective(ctx).finished
  }

  /** `Get` returns once the promise has settled or the context has finished. */
  predicate Ready(st: Store, p: PromiseId, ctx: Option<Context>)
  {
    IsSettled(st, p) || Finished(ctx)
  }

  /** The pair the recording handlers leave. A rejection records only its
      reason, so the value stays zero. A fulfilment records its value when
      `value.(T)` holds. When the assertion fails, the handler panics instead:
      the helper promise rejects through `rejectOnPanic`, and neither a value
      nor an error is recorded (promise.go:57-72). */
  function SettledPair(res: Result, isT: TypeTest): (r: (Value, Option<Error>))
    ensures r.1 == res.err
    ensures res.Fulfilled() && isT(res.val) ==> r.0 == res.val
    ensures res.Fulfilled() && !isT(res.val) ==> r.0 == Nil
    ensures res.Rejected() ==> r.0 == Nil
  {
    if res.err.Some? then (Nil, res.err)
    else if isT(res.val) then (res.val, None)
    else (Nil, None)
  }

  /** `Get` (promise.go:49-82). When both the promise and the context are
      ready, Go's `select` may take either branch; `preferSettled` is that
      choice. */
  function Get(st: Store, p: PromiseId, ctx: Option<Context>, preferSettled: bool, isT: TypeTest): (r: (Value, Option<Error>))
    requires Ready(st, p, ctx)
    ensures ctx.None? ==> IsSettled(st, p) && r == SettledPair(StateOf(st, p).res, isT)
    ensures !IsSettled(st, p) ==> r == (Nil, Some(Effective(ctx).reason))
    ensures IsSettled(st, p) && (preferSettled || !Finished(ctx)) ==> r == SettledPair(StateOf(st, p).res, isT)
    ensures IsSettled(st, p) && !preferSettled && Finished(ctx) ==> r == (Nil, Some(Effective(ctx).reason))
  {
    var settled := IsSettled(st, p);
    if settled && (preferSettled || !Finished(ctx)) then SettledPair(StateOf(st, p).res, isT)
    else (Nil, Some(Effective(ctx).reason))
  }

  /** `Run` followed by a `Get` that takes the settled branch hands back what
      the function returned: its value with a nil error, or the zero value
      with its error or the reason for its panic. The value is one `Run`'s
      signature admits: a `T`, or nil when `T` is an interface type. */
  lemma RunGetRoundTrip(st: Store, fn: Fn, ctx: Option<Context>, preferSettled: bool, isT: TypeTest)
    requires Valid(st)
    requires fn().Returned? && fn().err.None? ==> Terminal(fn().val) && (isT(fn().val) || fn().val.Nil?)
    requires preferSettled || !Finished(ctx)
    ensures var p := Run(st, Some(fn));
            var s := Complete(p.st, p.id, fn);
            IsSettled(s, p.id) &&
            Get(s, p.id, ctx, preferSettled, isT) ==
              match fn()
              case Returned(v, e) => if e.Some? then (Nil, e) else (v, None)
              case Panicked(x) => (Nil, Some(PanicReason(x)))
  {
  }

  /** Repeated and concurrent `Get` calls agree: whatever `resolve`/`reject`
      calls happen after the promise settled, a later `Get` that takes the
      settled branch returns the same pair as an earlier one. */
  lemma GetIsStable(st: Store, p: PromiseId, cs: seq<SettleOnce.Call>, ctx: Option<Context>, ctx': Option<Context>,
                    isT: TypeTest)
    requires Valid(st) && IsSettled(st, p) && SettleOnce.CallTargets(st, cs)
    ensures IsSettled(SettleOnce.Run(st, cs), p)
    ensures Get(st, p, ctx, true, isT) == Get(SettleOnce.Run(st, cs), p, ctx', true, isT)
  {
    SettleOnce.SettledIsFinal(st, cs, p);
  }

  /** A cancelled `Get` does not stop the function: the promise still settles
      with the function's outcome, and a later `Get` without a context
      returns it. */
  lemma CancelledGetLeavesPromiseRunning(st: Store, fn: Fn, reason: Error, isT: TypeTest)
    requires Valid(st)
    requires fn().Returned? && fn().err.None? ==> Terminal(fn().val)
    ensures var p := Run(st, Some(fn));
            var early := Get(p.st, p.id, Some(Cancellable(true, reason)), true, isT);
            var s := Complete(p.st, p.id, fn);
            && early == (Nil, Some(reason))
            && IsPending(p.st, p.id)
            && Get(s, p.id, None, false, isT) == SettledPair(StateOf(s, p.id).res, isT)
            && StateOf(s, p.id).Settled?
  {
  }

  /** A function returning a promise, which `Run` accepts when `T`'s values
      include `*promise.Promise`. `resolve` flattens the promise, so the
      stored value is the inner promise's value. That value is not a `T`, so
      the recording handler's type assertion panics, and `Get` returns the
      zero value with a nil error: the value is lost. */
  lemma FlattenedPromiseValueLost(st: Store, fn: Fn, x: PromiseId, w: Value, isT: TypeTest,
                                  ctx: Option<Context>, preferSettled: bool)
    requires Valid(st) && StateOf(st, x) == Settled(Fulfilment(w))
    requires fn() == Returned(PromiseRef(x), None) && isT(PromiseRef(x)) && !isT(w)
    requires preferSettled || !Finished(ctx)
    ensures var p := Run(st, Some(fn));
            var s := Complete(p.st, p.id, fn);
            && StateOf(s, p.id) == Settled(Fulfilment(w))
            && Get(s, p.id, ctx, preferSettled, isT) == (Nil, None)
  {
  }
}

=== FILE: cell.dfy ===
/**
 The single-assignment result cell of promise/promise.go. All promises live in
 a store that maps an identity to `Pending` or `Settled(result)`; a goroutine
 waiting on a promise becomes a precondition that it is settled, and a race
 between writers becomes an arbitrary order of `Settle` calls.
 */
module Cell {
  import opened Wrappers
  import opened Errors

  type PromiseId = nat

  /** What `resolve` may be handed (a Go `any`): nil, an ordinary value, an
      error value, or a reference to a promise. */
  datatype Value =
    | Nil
    | Plain(data: nat)
    | ErrorValue(err: Error)
    | PromiseRef(id: PromiseId)

  /** A value a promise can be fulfilled with: neither an error nor a promise. */
  predicate Terminal(v: Value)
  {
    v.Nil? || v.Plain?
  }

  /** `result`: the promise counts as rejected exactly when `err` is non-nil. */
  datatype Result = Result(val: Value, err: Option<Error>) {
    predicate Rejected() { err.Some? }
    predicate Fulfilled() { err.None? }
  }

  function Fulfilment(v: Value): Result { Result(v, None) }
  function Rejection(e: Error): Result { Result(Nil, Some(e)) }

  datatype State = Pending | Settled(res: Result)

  datatype Store = Store(promises: map<PromiseId, State>, next: PromiseId)

  /** The state of a promise; an identity the store has never handed out
      reads as a promise that never settles. */
  function StateOf(st: Store, id: PromiseId): State
  {
    if id in st.promises then st.promises[id] else Pending
  }

  predicate IsSettled(st: Store, id: PromiseId)
  {
    StateOf(st, id).Settled?
  }

  predicate IsPending(st: Store, id: PromiseId)
  {
    id in st.promises && st.promises[id].Pending?
  }

  /** The shape every stored result has: the value is never an error or a
      promise (resolution unwraps both), and a rejection carries no value. */
  predicate WellFormed(r: Result)
  {
    Terminal(r.val) && (r.Rejected() ==> r.val == Nil)
  }

  /** The store invariant that every operation preserves. */
  predicate Valid(st: Store)
  {
    && (forall id :: id in st.promises ==> id < st.next)
    && (forall id :: id in st.promises && st.promises[id].Settled? ==> WellFormed(st.promises[id].res))
  }

  /** No promise other than `p` changed, and no promise was added or removed. */
  ghost predicate OnlyTouches(st: Store, st': Store, p: PromiseId)
  {
    && st'.next == st.next
    && st'.promises.Keys == st.promises.Keys
    && (forall q :: q != p ==> StateOf(st', q) == StateOf(st, q))
  }

  /** `newPromise`: a fresh pending promise. */
  function NewPromise(st: Store): (r: (Store, PromiseId))
    requires Valid(st)
    ensures Valid(r.0)
    ensures r.1 !in st.promises && IsPending(r.0, r.1)
    ensures r.0.promises.Keys == st.promises.Keys + {r.1}
    ensures forall q :: q != r.1 ==> StateOf(r.0, q) == StateOf(st, q)
  {
    (Store(st.promises[st.next := Pending], st.next + 1), st.next)
  }

  /** `settle`: the result is written only while the promise is pending;
      every later write is ignored (promise/promise.go:231-236). */
  function Settle(st: Store, p: PromiseId, res: Result): (r: Store)
    requires p in st.promises
    ensures OnlyTouches(st, r, p)
    ensures IsPending(st, p) ==> StateOf(r, p) == Settled(res)
    ensures IsSettled(st, p) ==> r == st
    ensures Valid(st) && WellFormed(res) ==> Valid(r)
  {
    if st.promises[p].Pending? then st.(promises := st.promises[p := Settled(res)]) else st
  }
}

=== FILE: chaining.dfy ===
/**
 The chaining rules of promise/promise.go. `Then`, `Catch` and `Finally`
 create the derived promise and register a task; the task runs once the
 source has settled (a precondition of `RunThen`/`RunFinally`) and settles the
 derived promise from the handler's return value.
 */
module Chaining {
  import opened Wrappers
  import opened Errors
  import opened Cell
  import opened Settlement

  /** What a handler does: return a value, or panic with a payload. */
  datatype Reaction = Returns(v: Value) | Raises(payload: Panic)

  type FulfilHandler = Value -> Reaction
  type RejectHandler = Error -> Reaction
  type FinallyHandler = () -> Reaction

  /** A registered continuation: the source it waits on, the derived promise
      it settles, and the handlers with the defaults already filled in. */
  datatype Task =
    | ThenTask(src: PromiseId, derived: PromiseId, onFulfilled: FulfilHandler, onRejected: RejectHandler)
    | FinallyTask(src: PromiseId, derived: PromiseId, onFinally: FinallyHandler)

  /** The default `onFulfilled`: the identity. */
  function PassValue(v: Value): Reaction { Returns(v) }

  /** The default `onRejected`: returns the error, which `resolve` turns back
      into a rejection. */
  function ReturnError(e: Error): Reaction { Returns(ErrorValue(e)) }

  /** The default `onFinally`: returns nil. */
  function ReturnNil(): Reaction { Returns(Nil) }

  /** `Then` (promise/promise.go:78-94): a missing `onFulfilled` becomes the
      identity; only the first of the variadic `onRejecteds` is used, and a
      missing or nil one becomes `ReturnError`. */
  function Then(st: Store, src: PromiseId, onFulfilled: Option<FulfilHandler>,
                onRejecteds: seq<Option<RejectHandler>>): (r: (Store, Task))
    requires Valid(st)
    ensures Valid(r.0)
    ensures r.1.ThenTask? && r.1.src == src
    ensures r.1.derived !in st.promises && IsPending(r.0, r.1.derived)
    ensures r.0.promises.Keys == st.promises.Keys + {r.1.derived}
    ensures forall q :: q != r.1.derived ==> StateOf(r.0, q) == StateOf(st, q)
    ensures onFulfilled.None? ==> forall v :: r.1.onFulfilled(v) == Returns(v)
    ensures onFulfilled.Some? ==> forall v :: r.1.onFulfilled(v) == onFulfilled.value(v)
    ensures (|onRejecteds| == 0 || onRejecteds[0].None?) ==>
      forall e :: r.1.onRejected(e) == Returns(ErrorValue(e))
    ensures |onRejecteds| > 0 && onRejecteds[0].Some? ==>
      forall e :: r.1.onRejected(e) == onRejecteds[0].value(e)
  {
    var onF := if onFulfilled.Some? then onFulfilled.value else PassValue;
    var onR := if |onRejecteds| > 0 && onRejecteds[0].Some? then onRejecteds[0].value else ReturnError;
    var (s, d) := NewPromise(st);
    (s, ThenTask(src, d, onF, onR))
  }

  /** `Catch(h)` is `Then(nil, h)` (promise/promise.go:100-102). */
  function Catch(st: Store, src: PromiseId, onRejected: Option<RejectHandler>): (r: (Store, Task))
    requires Valid(st)
    ensures Valid(r.0)
    ensures r.1.ThenTask? && r.1.src == src
    ensures r.1.derived !in st.promises && IsPending(r.0, r.1.derived)
    ensures r.0.promises.Keys == st.promises.Keys + {r.1.derived}
    ensures forall q :: q != r.1.derived ==> StateOf(r.0, q) == StateOf(st, q)
    ensures forall v :: r.1.onFulfilled(v) == Returns(v)
    ensures onRejected.Some? ==> forall e :: r.1.onRejected(e) == onRejected.value(e)
    ensures onRejected.None? ==> forall e :: r.1.onRejected(e) == Returns(ErrorValue(e))
  {
    Then(st, src, None, [onRejected])
  }

  /** `Finally` (promise/promise.go:108-111): a missing `onFinally` returns nil. */
  function Finally(st: Store, src: PromiseId, onFinally: Option<FinallyHandler>): (r: (Store, Task))
    requires Valid(st)
    ensures Valid(r.0)
    ensures r.1.FinallyTask? && r.1.src == src
    ensures r.1.derived !in st.promises && IsPending(r.0, r.1.derived)
    ensures r.0.promises.Keys == st.promises.Keys + {r.1.derived}
    ensures forall q :: q != r.1.derived ==> StateOf(r.0, q) == StateOf(st, q)
    ensures onFinally.None? ==> r.1.onFinally() == Returns(Nil)
    ensures onFinally.Some? ==> r.1.onFinally() == onFinally.value()
  {
    var (s, d) := NewPromise(st);
    (s, FinallyTask(src, d, if onFinally.Some? then onFinally.value else ReturnNil))
  }

  /** The reaction of the one handler a `then` task invokes for a settled
      result: `onRejected(err)` when `err` is non-nil, `onFulfilled(val)`
      otherwise. */
  function Chosen(t: Task, res: Result): Reaction
    requires t.ThenTask?
  {
    if res.err.Some? then t.onRejected(res.err.value) else t.onFulfilled(res.val)
  }

  /** The body of the `then` task (promise/promise.go:151-173), run after the
      source settled. The handler's value goes to `resolve`, never `reject`,
      except that returning the source promise itself rejects with an error
      wrapping `ErrUnsupported`; a panicking handler rejects. */
  function RunThen(st: Store, t: Task): (r: Store)
    requires Valid(st) && t.ThenTask?
    requires IsSettled(st, t.src) && t.derived in st.promises
    ensures Valid(r) && OnlyTouches(st, r, t.derived)
    ensures IsSettled(st, t.derived) ==> r == st
    ensures IsPending(st, t.derived) ==>
      var h := Chosen(t, StateOf(st, t.src).res);
      && (h.Raises? ==> StateOf(r, t.derived) == Settled(Rejection(PanicReason(h.payload))))
      && (h == Returns(PromiseRef(t.src)) ==> StateOf(r, t.derived) == Settled(Rejection(SelfResolve)))
      && (h.Returns? && Terminal(h.v) ==> StateOf(r, t.derived) == Settled(Fulfilment(h.v)))
      && (h.Returns? && h.v.ErrorValue? ==> StateOf(r, t.derived) == Settled(Rejection(h.v.err)))
      && (h.Returns? && h.v.PromiseRef? && h.v.id != t.src && IsSettled(st, h.v.id) ==>
            StateOf(r, t.derived) == StateOf(st, h.v.id))
      && (h.Returns? && h.v.PromiseRef? && !IsSettled(st, h.v.id) ==> r == st)
  {
    var res := StateOf(st, t.src).res;
    var h := if res.err.Some? then t.onRejected(res.err.value) else t.onFulfilled(res.val);
    match h
    case Raises(x) => RejectOnPanic(st, t.derived, Some(x))
    case Returns(v) =>
      if v == PromiseRef(t.src) then Reject(st, t.derived, Some(SelfResolve))
      else Resolve(st, t.derived, v)
  }

  /** Whether what `onFinally` returned overrides the source's outcome: an
      error value, or a promise whose result already carries an error. A
      promise that is still pending is read without waiting and does not. */
  function Override(st: Store, h: Reaction): (r: Option<Error>)
    requires h.Returns?
    ensures r.Some? <==> (h.v.ErrorValue? || (h.v.PromiseRef? && IsSettled(st, h.v.id) && StateOf(st, h.v.id).res.Rejected()))
    ensures h.v.ErrorValue? ==> r == Some(h.v.err)
    ensures h.v.PromiseRef? && r.Some? ==> r == StateOf(st, h.v.id).res.err
  {
    match h.v
    case PromiseRef(x) => if StateOf(st, x).Settled? then StateOf(st, x).res.err else None
    case ErrorValue(e) => Some(e)
    case _ => None
  }

  /** The body of the `Finally` task (promise/promise.go:112-139), run after
      the source settled: a panic or an overriding return rejects the derived
      promise; anything else settles it exactly as the source is settled. */
  function RunFinally(st: Store, t: Task): (r: Store)
    requires Valid(st) && t.FinallyTask?
    requires IsSettled(st, t.src) && t.derived in st.promises
    ensures Valid(r) && OnlyTouches(st, r, t.derived)
    ensures IsSettled(st, t.derived) ==> r == st
    ensures IsPending(st, t.derived) ==>
      var h := t.onFinally();
      && (h.Raises? ==> StateOf(r, t.derived) == Settled(Rejection(PanicReason(h.payload))))
      && (h.Returns? && h.v.ErrorValue? ==> StateOf(r, t.derived) == Settled(Rejection(h.v.err)))
      && (h.Returns? && h.v.PromiseRef? && IsSettled(st, h.v.id) && StateOf(st, h.v.id).res.Rejected() ==>
            StateOf(r, t.derived) == Settled(Rejection(StateOf(st, h.v.id).res.err.value)))
      && (h.Returns? && (Terminal(h.v) || (h.v.PromiseRef? && (!IsSettled(st, h.v.id) || StateOf(st, h.v.id).res.Fulfilled()))) ==>
            StateOf(r, t.derived) == StateOf(st, t.src))
  {
    var h := t.onFinally();
    match h
    case Raises(x) => RejectOnPanic(st, t.derived, Some(x))
    case Returns(_) =>
      match Override(st, h)
      case Some(e) => Reject(st, t.derived, Some(e))
      case None =>
        var res := StateOf(st, t.src).res;
        if res.err.Some? then Reject(st, t.derived, res.err) else Resolve(st, t.derived, res.val)
  }
}

=== FILE: chaining_facts.dfy ===
/**
 Properties of chains built with `Then`, `Catch` and `Finally`: the default
 handlers pass outcomes through unchanged, exactly one handler sees a settled
 result, a rejection handler can recover, a handler returning its own source
 is rejected, and `Finally` keeps the source's outcome unless it overrides it.
 */
module ChainingFacts {
  import opened Wrappers
  import opened Errors
  import opened Cell
  import opened Settlement
  import opened Chaining

  /** `Then` with no handlers (or a nil `onRejected`) settles the derived
      promise exactly as the source: a fulfilment passes its value, a
      rejection keeps its reason. */
  lemma ThenDefaultsPassThrough(st: Store, src: PromiseId, onRejecteds: seq<Option<RejectHandler>>)
    requires Valid(st) && IsSettled(st, src)
    requires |onRejecteds| == 0 || onRejecteds[0].None?
    ensures var (s, t) := Then(st, src, None, onRejecteds);
            StateOf(RunThen(s, t), t.derived) == StateOf(st, src)
  {
  }

  /** `Catch` leaves a fulfilment alone: its handler is not called and the
      value passes through. */
  lemma CatchPassesFulfilment(st: Store, src: PromiseId, onRejected: Option<RejectHandler>)
    requires Valid(st) && IsSettled(st, src) && StateOf(st, src).res.Fulfilled()
    ensures var (s, t) := Catch(st, src, onRejected);
            && Chosen(t, StateOf(s, src).res) == Returns(StateOf(st, src).res.val)
            && StateOf(RunThen(s, t), t.derived) == StateOf(st, src)
  {
  }

  /** A rejection handler's return value goes to `resolve`: a plain value
      recovers (fulfils the derived promise), an error value rejects it with
      that error. */
  lemma RejectionHandlerResult(st: Store, src: PromiseId, onRejected: RejectHandler)
    requires Valid(st) && IsSettled(st, src) && StateOf(st, src).res.Rejected()
    ensures var (s, t) := Catch(st, src, Some(onRejected));
            var h := onRejected(StateOf(st, src).res.err.value);
            && (h.Returns? && Terminal(h.v) ==> StateOf(RunThen(s, t), t.derived) == Settled(Fulfilment(h.v)))
            && (h.Returns? && h.v.ErrorValue? ==> StateOf(RunThen(s, t), t.derived) == Settled(Rejection(h.v.err)))
  {
  }

  /** `Reject(nil)` is a fulfilment with nil: `then` calls `onFulfilled(nil)`
      and never `onRejected`. */
  lemma RejectNilCallsOnFulfilled(st: Store, onFulfilled: FulfilHandler, onRejected: RejectHandler)
    requires Valid(st)
    ensures var (s1, p) := NewRejected(st, None);
            var (s2, t) := Then(s1, p, Some(onFulfilled), [Some(onRejected)]);
            IsSettled(s2, p) && Chosen(t, StateOf(s2, p).res) == onFulfilled(Nil)
  {
  }

  /** Whichever handler runs, if it returns its own source promise the
      derived promise is rejected with an error wrapping `ErrUnsupported`
      instead of waiting on itself. */
  lemma HandlerReturningSourceRejects(st: Store, src: PromiseId, onFulfilled: Option<FulfilHandler>,
                                      onRejecteds: seq<Option<RejectHandler>>)
    requires Valid(st) && IsSettled(st, src)
    requires Chosen(Then(st, src, onFulfilled, onRejecteds).1, StateOf(st, src).res) == Returns(PromiseRef(src))
    ensures var (s, t) := Then(st, src, onFulfilled, onRejecteds);
            var r := StateOf(RunThen(s, t), t.derived);
            r == Settled(Rejection(SelfResolve)) && Is(r.res.err.value, Unsupported)
  {
  }

  /** `Finally(nil)` and a handler returning a non-error value both keep the
      source's outcome. */
  lemma FinallyKeepsOutcome(st: Store, src: PromiseId, onFinally: Option<FinallyHandler>)
    requires Valid(st) && IsSettled(st, src)
    requires onFinally.Some? ==> onFinally.value().Returns? && Terminal(onFinally.value().v)
    ensures var (s, t) := Finally(st, src, onFinally);
            StateOf(RunFinally(s, t), t.derived) == StateOf(st, src)
  {
  }

  /** `Finally` whose handler returns a rejected promise rejects with that
      promise's reason, whatever the source's outcome. */
  lemma FinallyReturningRejectedPromise(st: Store, src: PromiseId, e: Error)
    requires Valid(st) && IsSettled(st, src)
    ensures var (s1, x) := NewRejected(st, Some(e));
            var (s2, t) := Finally(s1, src, Some(() => Returns(PromiseRef(x))));
            StateOf(RunFinally(s2, t), t.derived) == Settled(Rejection(e))
  {
  }

  /** A rejection skips every fulfilment handler down a chain: through
      `Then(f)` without a rejection handler it keeps its reason, and the
      next `Catch(h)` calls `h` with that same reason. */
  lemma RejectionReachesCatch(st: Store, src: PromiseId, f: FulfilHandler, h: RejectHandler)
    requires Valid(st) && IsSettled(st, src) && StateOf(st, src).res.Rejected()
    ensures var e := StateOf(st, src).res.err.value;
            var (s1, t1) := Then(st, src, Some(f), []);
            var s2 := RunThen(s1, t1);
            var (s3, t2) := Catch(s2, t1.derived, Some(h));
            && StateOf(s2, t1.derived) == Settled(Rejection(e))
            && Chosen(t2, StateOf(s3, t1.derived).res) == h(e)
  {
  }
}

=== FILE: errors.dfy ===
/**
 Error values of the promise engine, kept abstract: an error is an identifier,
 the standard sentinel `errors.ErrUnsupported`, an error that wraps another one
 behind a prefix (`fmt.Errorf("prefix: %w", inner)`), or a formatted message
 that wraps nothing (`fmt.Errorf` without `%w`).
 */
module Errors {

  datatype Error =
    | Custom(id: nat)
    | Unsupported
    | Wrapped(prefix: string, inner: Error)
    | Formatted(text: string)

  /** `errors.Is`: `e` is `target` or wraps it, at any depth. */
  predicate Is(e: Error, target: Error)
  {
    e == target || (e.Wrapped? && Is(e.inner, target))
  }

  /** A panic payload as seen by `recover()`: an error, or any other value
      together with its `%v` rendering. */
  datatype Panic =
    | ErrorPanic(err: Error)
    | ValuePanic(rendered: string)

  const PanicPrefix: string := "panic: "

  /** The rejection reason for a recovered panic (promise/promise.go:216-221):
      an error payload is used as it is, anything else becomes a formatted
      error whose text is "panic: " followed by the payload. */
  function PanicReason(p: Panic): (r: Error)
    ensures p.ErrorPanic? ==> r == p.err
    ensures p.ValuePanic? ==> r.Formatted? && |r.text| == |PanicPrefix| + |p.rendered|
    ensures p.ValuePanic? ==> r.text[..|PanicPrefix|] == PanicPrefix
    ensures p.ValuePanic? ==> r.text[|PanicPrefix|..] == p.rendered
  {
    match p
    case ErrorPanic(e) => e
    case ValuePanic(s) => Formatted(PanicPrefix + s)
  }

  /** The reason a `then` task rejects with when a handler returns the source
      promise itself (promise/promise.go:166). */
  const SelfResolve: Error := Wrapped("resolve with self", Unsupported)
}

=== FILE: executor.dfy ===
/**
 `New` and the executor goroutine it starts (promise/promise.go:47-57). The
 executor is modelled by the calls it makes, in order: `resolve(v)`,
 `reject(err)`, or a panic, which the deferred `rejectOnPanic` turns into a
 rejection and which ends the executor.
 */
module Executor {
  import opened Wrappers
  import opened Errors
  import opened Cell
  import opened Settlement

  datatype Action =
    | CallResolve(v: Value)
    | CallReject(err: Option<Error>)
    | Raise(payload: Panic)

  /** What `New` gives back: the panic it raises for a nil executor, or the
      fresh pending promise whose executor is now running. */
  datatype Started = NilFunction(message: string) | Started(st: Store, id: PromiseId)

  const NilExecutorMessage: string := "promise: nil function"

  function New(st: Store, executor: Option<seq<Action>>): (r: Started)
    requires Valid(st)
    ensures executor.None? <==> r.NilFunction?
    ensures r.NilFunction? ==> r.message == NilExecutorMessage
    ensures r.Started? ==> Valid(r.st) && r.id !in st.promises && IsPending(r.st, r.id)
    ensures r.Started? ==> forall q :: q != r.id ==> StateOf(r.st, q) == StateOf(st, q)
  {
    if executor.None? then NilFunction(NilExecutorMessage)
    else
      var (s, p) := NewPromise(st);
      Started(s, p)
  }

  /** The executor goroutine run against promise `p`: returns the final store
      and the calls not yet made. It stops after a panic (nothing is left to
      run) or at a `resolve` that waits on a pending promise (that call and
      the ones after it are left). */
  function Execute(st: Store, p: PromiseId, actions: seq<Action>): (r: (Store, seq<Action>))
    requires Valid(st) && p in st.promises
    ensures Valid(r.0) && OnlyTouches(st, r.0, p)
    ensures |r.1| <= |actions| && r.1 == actions[|actions| - |r.1|..]
    ensures r.1 != [] ==> r.1[0].CallResolve? && Adopt(r.0, r.1[0].v).Blocked?
    decreases |actions|
  {
    if |actions| == 0 then (st, [])
    else
      match actions[0]
      case CallResolve(v) =>
        if Adopt(st, v).Blocked? then (st, actions)
        else Execute(Resolve(st, p, v), p, actions[1..])
      case CallReject(e) => Execute(Reject(st, p, e), p, actions[1..])
      case Raise(x) => (RejectOnPanic(st, p, Some(x)), [])
  }

  /** The state the first executor call leaves a pending promise in, read on
      its own: a `resolve` writes what resolution adopts or waits, a
      `reject` writes a nil value with its error, a panic rejects with the
      payload's reason. */
  function FirstCallOutcome(st: Store, a: Action): State
    requires Valid(st)
  {
    match a
    case CallResolve(v) =>
      (match Adopt(st, v)
       case Blocked(_) => Pending
       case Settles(res) => Settled(res))
    case CallReject(e) => Settled(Result(Nil, e))
    case Raise(x) => Settled(Rejection(PanicReason(x)))
  }

  /** The calls a settled executor leaves over when it runs `actions`
      against store `st`: everything from the first `resolve` that waits on a
      pending promise, or nothing when a panic comes first or no such
      `resolve` comes at all. */
  function WaitingSuffix(st: Store, actions: seq<Action>): (r: seq<Action>)
    requires Valid(st)
    ensures |r| <= |actions| && r == actions[|actions| - |r|..]
    ensures r != [] ==> r[0].CallResolve? && Adopt(st, r[0].v).Blocked?
    decreases |actions|
  {
    if |actions| == 0 then []
    else
      match actions[0]
      case CallResolve(v) => if Adopt(st, v).Blocked? then actions else WaitingSuffix(st, actions[1..])
      case CallReject(_) => WaitingSuffix(st, actions[1..])
      case Raise(_) => []
  }

  /** Runs the executor's calls one at a time. On a pending promise the first
      call alone decides the outcome; a settled promise is never changed; the
      run stops at a panic, or at a `resolve` waiting on a pending promise. */
  method RunExecutor(st: Store, p: PromiseId, actions: seq<Action>) returns (r: Store, rest: seq<Action>)
    requires Valid(st) && p in st.promises
    ensures Valid(r) && OnlyTouches(st, r, p)
    ensures IsPending(st, p) && |actions| > 0 ==> StateOf(r, p) == FirstCallOutcome(st, actions[0])
    ensures IsPending(st, p) && |actions| == 0 ==> r == st
    ensures IsSettled(st, p) ==> r == st
    ensures |rest| <= |actions| && rest == actions[|actions| - |rest|..]
    ensures rest != [] ==> rest[0].CallResolve? && Adopt(r, rest[0].v).Blocked?
    ensures |actions| > 0 && actions[0].CallResolve? && Adopt(st, actions[0].v).Blocked? ==> rest == actions
    ensures |actions| > 0 && actions[0].Raise? ==> rest == []
    ensures |actions| > 0 && !actions[0].Raise? && !(actions[0].CallResolve? && Adopt(st, actions[0].v).Blocked?) ==>
      rest == WaitingSuffix(r, actions[1..])
  {
    if |actions| == 0 {
      return st, [];
    }
    var first := actions[0];
    if first.CallResolve? && Adopt(st, first.v).Blocked? {
      return st, actions;
    }
    if first.Raise? {
      return RejectOnPanic(st, p, Some(first.payload)), [];
    }
    var settled := if first.CallResolve? then Resolve(st, p, first.v) else Reject(st, p, first.err);
    r, rest := RunLaterCalls(settled, p, actions[1..]);
  }

  /** The executor's calls once its promise is settled: each `resolve`,
      `reject` or panic leaves the store as it is, and the run stops at a
      panic or at a `resolve` that waits on a pending promise. */
  method RunLaterCalls(st: Store, p: PromiseId, actions: seq<Action>) returns (r: Store, rest: seq<Action>)
    requires Valid(st) && p in st.promises && IsSettled(st, p)
    ensures r == st
    ensures rest == WaitingSuffix(st, actions)
  {
    r, rest := st, [];
    var i := 0;
    while i < |actions|
      invariant 0 <= i <= |actions|
      invariant r == st && rest == []
      invariant WaitingSuffix(st, actions[i..]) == WaitingSuffix(st, actions)
    {
      var a := actions[i];
      var tail := actions[i..];
      assert tail[0] == a && tail[1..] == actions[i + 1..];
      if a.CallResolve? && Adopt(r, a.v).Blocked? {
        rest := tail;
        break;
      }
      if a.Raise? {
        r := RejectOnPanic(r, p, Some(a.payload));
        break;
      }
      r := if a.CallResolve? then Resolve(r, p, a.v) else Reject(r, p, a.err);
      i := i + 1;
    }
  }

  /** Once the promise is settled, nothing the executor does afterwards
      changes it: every later `resolve`, `reject` or panic is ignored. */
  lemma {:induction false} SettledExecutorIgnoresLaterCalls(st: Store, p: PromiseId, actions: seq<Action>)
    requires Valid(st) && p in st.promises && IsSettled(st, p)
    ensures Execute(st, p, actions).0 == st
    decreases |actions|
  {
    if |actions| > 0 {
      match actions[0]
      case CallResolve(v) =>
        if !Adopt(st, v).Blocked? {
          SettledExecutorIgnoresLaterCalls(Resolve(st, p, v), p, actions[1..]);
        }
      case CallReject(e) =>
        SettledExecutorIgnoresLaterCalls(Reject(st, p, e), p, actions[1..]);
      case Raise(x) =>
    }
  }

  /** On a settled promise the executor leaves over exactly the waiting
      suffix of its calls: it stops at the first `resolve` that waits, and a
      panic before it ends the executor with nothing left. */
  lemma {:induction false} SettledExecutorLeavesWaitingSuffix(st: Store, p: PromiseId, actions: seq<Action>)
    requires Valid(st) && p in st.promises && IsSettled(st, p)
    ensures Execute(st, p, actions).1 == WaitingSuffix(st, actions)
    decreases |actions|
  {
    if |actions| > 0 {
      match actions[0]
      case CallResolve(v) =>
        if !Adopt(st, v).Blocked? {
          SettledExecutorLeavesWaitingSuffix(Resolve(st, p, v), p, actions[1..]);
        }
      case CallReject(e) =>
        SettledExecutorLeavesWaitingSuffix(Reject(st, p, e), p, actions[1..]);
      case Raise(x) =>
    }
  }

  /** The first call that settles the promise decides its outcome: a
      `reject(err)` on a pending promise wins over everything after it. */
  lemma FirstRejectWins(st: Store, p: PromiseId, err: Option<Error>, later: seq<Action>)
    requires Valid(st) && IsPending(st, p)
    ensures StateOf(Execute(st, p, [CallReject(err)] + later).0, p) == Settled(Result(Nil, err))
  {
    var s := Reject(st, p, err);
    assert ([CallReject(err)] + later)[1..] == later;
    SettledExecutorIgnoresLaterCalls(s, p, later);
  }

  /** A panic after a successful `resolve(v)` with a terminal value does not
      change the fulfilment. */
  lemma PanicAfterResolveIgnored(st: Store, p: PromiseId, v: Value, x: Panic)
    requires Valid(st) && IsPending(st, p) && Terminal(v)
    ensures StateOf(Execute(st, p, [CallResolve(v), Raise(x)]).0, p) == Settled(Fulfilment(v))
  {
    assert [CallResolve(v), Raise(x)][1..] == [Raise(x)];
  }

  /** The first call decides: whatever the executor does afterwards, a
      pending promise ends in the state its first call alone would leave it
      in. */
  lemma {:induction false} FirstCallDecides(st: Store, p: PromiseId, actions: seq<Action>)
    requires Valid(st) && IsPending(st, p) && |actions| > 0
    ensures StateOf(Execute(st, p, actions).0, p) == FirstCallOutcome(st, actions[0])
  {
    match actions[0]
    case CallResolve(v) =>
      if Adopt(st, v).Settles? {
        SettledExecutorIgnoresLaterCalls(Resolve(st, p, v), p, actions[1..]);
      }
    case CallReject(e) =>
      SettledExecutorIgnoresLaterCalls(Reject(st, p, e), p, actions[1..]);
    case Raise(x) =>
  }

  /** An executor that stops at a waiting `resolve` has not panicked before
      it: a panic always ends the executor with nothing left to run. */
  lemma {:induction false} NoPanicBeforeBlockedCall(st: Store, p: PromiseId, actions: seq<Action>)
    requires Valid(st) && p in st.promises
    ensures var rest := Execute(st, p, actions).1;
            rest != [] ==> forall k :: 0 <= k < |actions| - |rest| ==> !actions[k].Raise?
    decreases |actions|
  {
    if |actions| > 0 && !actions[0].Raise? {
      var s := match actions[0]
               case CallResolve(v) => Resolve(st, p, v)
               case CallReject(e) => Reject(st, p, e)
               case Raise(x) => st;
      if !(actions[0].CallResolve? && Adopt(st, actions[0].v).Blocked?) {
        NoPanicBeforeBlockedCall(s, p, actions[1..]);
        assert forall k :: 1 <= k < |actions| ==> actions[k] == actions[1..][k - 1];
      }
    }
  }
}

=== FILE: flattening.dfy ===
/**
 Facts about the resolution procedure across several calls: nested promises
 flatten to the terminal outcome, and a resolver blocked on a pending promise
 adopts that promise's result once it settles.
 */
module Flattening {
  import opened Cell
  import opened Settlement

  /** The state `resolve(v)` leaves a fresh promise in. */
  function Eventual(st: Store, v: Value): State
    requires Valid(st)
  {
    match Adopt(st, v)
    case Blocked(_) => Pending
    case Settles(res) => Settled(res)
  }

  /** `Resolve(Resolve(...Resolve(v)))`, `depth` promises deep; returns the
      outermost one. */
  function Nest(st: Store, v: Value, depth: nat): (r: (Store, PromiseId))
    requires Valid(st) && depth >= 1
    ensures Valid(r.0)
    ensures r.1 in r.0.promises && st.promises.Keys <= r.0.promises.Keys
    ensures forall q :: q in st.promises ==> StateOf(r.0, q) == StateOf(st, q)
    decreases depth
  {
    if depth == 1 then NewResolved(st, v)
    else
      var (s, p) := Nest(st, v, depth - 1);
      NewResolved(s, PromiseRef(p))
  }

  /** However deep the nesting, the outermost promise ends in the state that
      resolving with `v` directly gives: a terminal value fulfils it with that
      value, an error rejects it, and it is never fulfilled with a promise. */
  lemma {:induction false} NestedPromisesFlatten(st: Store, v: Value, depth: nat)
    requires Valid(st) && depth >= 1
    ensures StateOf(Nest(st, v, depth).0, Nest(st, v, depth).1) == Eventual(st, v)
    ensures Terminal(v) ==> StateOf(Nest(st, v, depth).0, Nest(st, v, depth).1) == Settled(Fulfilment(v))
    ensures v.ErrorValue? ==> StateOf(Nest(st, v, depth).0, Nest(st, v, depth).1) == Settled(Rejection(v.err))
    decreases depth
  {
    if depth > 1 {
      NestedPromisesFlatten(st, v, depth - 1);
      var (s, p) := Nest(st, v, depth - 1);
      var (s', p') := NewResolved(s, PromiseRef(p));
      assert StateOf(s', p') == StateOf(s, p);
    } else {
      var (s, p) := NewResolved(st, v);
      match Adopt(st, v)
      case Blocked(x) =>
        assert StateOf(s, p) == Pending;
      case Settles(res) =>
        assert StateOf(s, p) == Settled(res);
    }
  }

  /** A resolver waiting on a pending promise changes nothing; once that promise
      settles, resuming the resolver adopts exactly its result. */
  lemma BlockedResolverResumes(st: Store, p: PromiseId, x: PromiseId, res: Result)
    requires Valid(st) && IsPending(st, p) && IsPending(st, x) && p != x
    requires WellFormed(res)
    ensures Resolve(st, p, PromiseRef(x)) == st
    ensures StateOf(Resolve(Settle(st, x, res), p, PromiseRef(x)), p) == Settled(res)
  {
  }

  /** The resolution procedure itself does not detect a promise resolved with
      its own identity: the resolver waits on itself and the promise stays
      pending. Only `then` checks for self-reference. */
  lemma ResolveWithOwnIdentityStaysPending(st: Store, p: PromiseId)
    requires Valid(st) && IsPending(st, p)
    ensures Resolve(st, p, PromiseRef(p)) == st
    ensures IsPending(Resolve(st, p, PromiseRef(p)), p)
  {
  }
}

=== FILE: settle_once.dfy ===
/**
 Settle-once under races. Concurrent writers to the result cell are modelled
 as every order in which their `settle` calls can happen; concurrent
 `resolve`/`reject` callers as every order of those calls.
 */
module SettleOnce {
  import opened Wrappers
  import opened Errors
  import opened Cell
  import opened Settlement

  datatype Write = Write(target: PromiseId, res: Result)

  predicate Targets(st: Store, ws: seq<Write>)
  {
    forall i :: 0 <= i < |ws| ==> ws[i].target in st.promises
  }

  /** The store after the `settle` calls happen in the order given. */
  function Interleave(st: Store, ws: seq<Write>): (r: Store)
    requires Targets(st, ws)
    ensures r.promises.Keys == st.promises.Keys && r.next == st.next
    decreases |ws|
  {
    if |ws| == 0 then st
    else Interleave(Settle(st, ws[0].target, ws[0].res), ws[1..])
  }

  /** The result of the earliest write aimed at `p`, if any. */
  function FirstWriteTo(ws: seq<Write>, p: PromiseId): (r: Option<Result>)
    ensures r.Some? <==> exists i :: 0 <= i < |ws| && ws[i].target == p
    ensures r.Some? ==> exists i :: 0 <= i < |ws| && ws[i] == Write(p, r.value)
    decreases |ws|
  {
    if |ws| == 0 then None
    else if ws[0].target == p then Some(ws[0].res)
    else
      var r := FirstWriteTo(ws[1..], p);
      assert forall i :: 1 <= i < |ws| ==> ws[i] == ws[1..][i - 1];
      r
  }

  /** First settlement wins: in any order of writes, a promise that was pending
      ends with the result of the first write aimed at it, and a promise that
      was settled, or that nobody wrote, keeps its state. */
  lemma {:induction false} FirstWriteWins(st: Store, ws: seq<Write>, p: PromiseId)
    requires Targets(st, ws)
    ensures StateOf(Interleave(st, ws), p) ==
      if IsPending(st, p) && FirstWriteTo(ws, p).Some? then Settled(FirstWriteTo(ws, p).value)
      else StateOf(st, p)
    decreases |ws|
  {
    if |ws| > 0 {
      var s := Settle(st, ws[0].target, ws[0].res);
      assert Targets(s, ws[1..]);
      FirstWriteWins(s, ws[1..], p);
    }
  }

  /** Every reader sees the same outcome: once some prefix of the writes has
      settled `p`, every longer prefix leaves it as it was. */
  lemma ReadersAgree(st: Store, ws: seq<Write>, p: PromiseId, i: nat, j: nat)
    requires Targets(st, ws) && i <= j <= |ws|
    requires IsSettled(Interleave(st, ws[..i]), p)
    ensures StateOf(Interleave(st, ws[..j]), p) == StateOf(Interleave(st, ws[..i]), p)
  {
    var a, b := ws[..i], ws[..j];
    assert Targets(st, a) by {
      forall k | 0 <= k < |a| ensures a[k].target in st.promises { assert a[k] == ws[k]; }
    }
    assert Targets(st, b) by {
      forall k | 0 <= k < |b| ensures b[k].target in st.promises { assert b[k] == ws[k]; }
    }
    FirstWriteWins(st, a, p);
    FirstWriteWins(st, b, p);
    if IsPending(st, p) {
      assert b[..i] == a;
      FirstWriteToPrefix(b, p, i);
    }
  }

  /** The first write to `p` in a prefix, when there is one, is the first
      write to `p` overall. */
  lemma {:induction false} FirstWriteToPrefix(ws: seq<Write>, p: PromiseId, i: nat)
    requires i <= |ws| && FirstWriteTo(ws[..i], p).Some?
    ensures FirstWriteTo(ws, p) == FirstWriteTo(ws[..i], p)
    decreases i
  {
    assert i > 0;
    if ws[0].target != p {
      assert ws[..i][1..] == ws[1..][..i - 1];
      FirstWriteToPrefix(ws[1..], p, i - 1);
    }
  }

  /** A call from a goroutine holding `resolve` or `reject` of some promise. */
  datatype Call = ResolveCall(target: PromiseId, v: Value) | RejectCall(target: PromiseId, err: Option<Error>)

  predicate CallTargets(st: Store, cs: seq<Call>)
  {
    forall i :: 0 <= i < |cs| ==> cs[i].target in st.promises
  }

  /** The store after the calls happen in the order given; a `resolve` that
      waits on a pending promise is a call that has not happened yet. */
  function Run(st: Store, cs: seq<Call>): (r: Store)
    requires Valid(st) && CallTargets(st, cs)
    ensures Valid(r) && r.promises.Keys == st.promises.Keys && r.next == st.next
    decreases |cs|
  {
    if |cs| == 0 then st
    else
      var s := match cs[0]
               case ResolveCall(p, v) => Resolve(st, p, v)
               case RejectCall(p, e) => Reject(st, p, e);
      Run(s, cs[1..])
  }

  /** Any later `resolve` or `reject`, on this promise or any other, leaves a
      settled promise's result as it was. */
  lemma {:induction false} SettledIsFinal(st: Store, cs: seq<Call>, p: PromiseId)
    requires Valid(st) && CallTargets(st, cs) && IsSettled(st, p)
    ensures StateOf(Run(st, cs), p) == StateOf(st, p)
    decreases |cs|
  {
    if |cs| > 0 {
      var s := match cs[0]
               case ResolveCall(q, v) => Resolve(st, q, v)
               case RejectCall(q, e) => Reject(st, q, e);
      assert StateOf(s, p) == StateOf(st, p);
      assert CallTargets(s, cs[1..]);
      SettledIsFinal(s, cs[1..], p);
    }
  }
}

=== FILE: settlement.dfy ===
/**
 The resolution procedure of promise/promise.go: `resolve` flattens a promise
 into its final outcome, turns an error value into a rejection and fulfils with
 anything else; `reject` settles directly; `Resolve`/`Reject` apply these to a
 fresh promise; `rejectOnPanic` turns a recovered panic into a rejection.
 */
module Settlement {
  import opened Wrappers
  import opened Errors
  import opened Cell

  /** What `resolve(v)` does once it stops recursing: it either waits on a
      pending promise, or writes a result. */
  datatype Resolution = Blocked(on: PromiseId) | Settles(res: Result)

  /** The result `resolve(v)` writes (promise/promise.go:186-205). A settled
      inner promise is adopted exactly: its rejection reason, or the result of
      resolving its value again; a pending one blocks the resolver. */
  function Adopt(st: Store, v: Value): (r: Resolution)
    requires Valid(st)
    decreases if v.PromiseRef? then 1 else 0
    ensures r.Settles? ==> WellFormed(r.res)
    ensures Terminal(v) ==> r == Settles(Fulfilment(v))
    ensures v.ErrorValue? ==> r == Settles(Rejection(v.err))
    ensures v.PromiseRef? ==> (r.Blocked? <==> !IsSettled(st, v.id))
    ensures v.PromiseRef? && r.Blocked? ==> r.on == v.id
    ensures v.PromiseRef? && IsSettled(st, v.id) ==> r == Settles(StateOf(st, v.id).res)
  {
    match v
    case PromiseRef(x) =>
      (match StateOf(st, x)
       case Pending => Blocked(x)
       case Settled(inner) =>
         if inner.err.Some? then Settles(Rejection(inner.err.value)) else Adopt(st, inner.val))
    case ErrorValue(e) => Settles(Rejection(e))
    case _ => Settles(Fulfilment(v))
  }

  /** `reject`: settle with a nil value and the given (possibly nil) error. */
  function Reject(st: Store, p: PromiseId, err: Option<Error>): (r: Store)
    requires Valid(st) && p in st.promises
    ensures Valid(r) && OnlyTouches(st, r, p)
    ensures IsPending(st, p) ==> StateOf(r, p) == Settled(Result(Nil, err))
    ensures IsSettled(st, p) ==> r == st
  {
    Settle(st, p, Result(Nil, err))
  }

  /** `resolve` applied to promise `p`: a blocked resolver leaves the store as
      it is (the goroutine waits); otherwise the adopted result is written,
      first write wins. */
  function Resolve(st: Store, p: PromiseId, v: Value): (r: Store)
    requires Valid(st) && p in st.promises
    ensures Valid(r) && OnlyTouches(st, r, p)
    ensures IsSettled(st, p) ==> r == st
    ensures IsPending(st, p) && Terminal(v) ==> StateOf(r, p) == Settled(Fulfilment(v))
    ensures IsPending(st, p) && v.ErrorValue? ==> StateOf(r, p) == Settled(Rejection(v.err))
    ensures IsPending(st, p) && v.PromiseRef? && IsSettled(st, v.id) ==> StateOf(r, p) == StateOf(st, v.id)
    ensures v.PromiseRef? && !IsSettled(st, v.id) ==> r == st
  {
    match Adopt(st, v)
    case Blocked(_) => st
    case Settles(res) => Settle(st, p, res)
  }

  /** `Resolve`: a fresh promise resolved with `v`. Where the source's caller
      would stay blocked on a pending inner promise, the model hands back the
      still-pending promise. */
  function NewResolved(st: Store, v: Value): (r: (Store, PromiseId))
    requires Valid(st)
    ensures Valid(r.0)
    ensures r.1 !in st.promises && r.0.promises.Keys == st.promises.Keys + {r.1}
    ensures forall q :: q != r.1 ==> StateOf(r.0, q) == StateOf(st, q)
    ensures Terminal(v) ==> StateOf(r.0, r.1) == Settled(Fulfilment(v))
    ensures v.ErrorValue? ==> StateOf(r.0, r.1) == Settled(Rejection(v.err))
    ensures v.PromiseRef? ==> StateOf(r.0, r.1) == StateOf(st, v.id)
  {
    var (s1, p) := NewPromise(st);
    (Resolve(s1, p, v), p)
  }

  /** `Reject`: a fresh promise rejected with `err`; a nil `err` fulfils it
      with nil instead (promise/promise.go:249-253). */
  function NewRejected(st: Store, err: Option<Error>): (r: (Store, PromiseId))
    requires Valid(st)
    ensures Valid(r.0)
    ensures r.1 !in st.promises && r.0.promises.Keys == st.promises.Keys + {r.1}
    ensures forall q :: q != r.1 ==> StateOf(r.0, q) == StateOf(st, q)
    ensures err.Some? ==> StateOf(r.0, r.1) == Settled(Rejection(err.value))
    ensures err.None? ==> StateOf(r.0, r.1) == Settled(Fulfilment(Nil))
  {
    var (s1, p) := NewPromise(st);
    (Reject(s1, p, err), p)
  }

  /** `rejectOnPanic`: no panic leaves the promise untouched; a recovered
      panic rejects it with the payload's reason. */
  function RejectOnPanic(st: Store, p: PromiseId, recovered: Option<Panic>): (r: Store)
    requires Valid(st) && p in st.promises
    ensures Valid(r) && OnlyTouches(st, r, p)
    ensures recovered.None? ==> r == st
    ensures IsSettled(st, p) ==> r == st
    ensures IsPending(st, p) && recovered.Some? && recovered.value.ErrorPanic? ==>
      StateOf(r, p) == Settled(Rejection(recovered.value.err))
    ensures IsPending(st, p) && recovered.Some? && recovered.value.ValuePanic? ==>
      StateOf(r, p).Settled? && StateOf(r, p).res.Rejected() &&
      StateOf(r, p).res.err.value == Formatted(PanicPrefix + recovered.value.rendered)
  {
    match recovered
    case None => st
    case Some(x) => Reject(st, p, Some(PanicReason(x)))
  }
}

=== FILE: wrappers.dfy ===
/** Optional values: Go's nil-able `error` and nil-able function arguments. */
module Wrappers {

  datatype Option<+T> = None | Some(value: T) {

    /** Returns the contained value, or `default` when there is none. */
    function GetOr(default: T): (r: T)
      ensures Some? ==> r == value
      ensures None? ==> r == default
    {
      match this
      case Some(v) => v
      case None => default
    }
  }
}
